=== FILE: README.md ===
# Experiment build orchestrator — a Dafny model

This project models the control logic of the `Experiment` class, the orchestrator that turns an
experiment descriptor and a source directory into a finished build directory. Four parts of it
are modelled as pure functions that return their effects as data:

- **Descriptor augmentation** (`Units`). `includeFeedback` and `includeContributors` push a
  fixed synthetic unit onto `descriptor.units`.
- **Validation planning** (`Validation`). `validate` runs the linter into `eslint.log` when
  `isESLINT` is set, with a truncating `>` redirection. When `isExpDesc` is set, it appends the
  descriptor validator's output to `validate.log`. It then walks the units in descriptor order,
  and for each unit whose `content-type` is the literal `"assesment"` it does one of two things:
  - if the file exists, it appends a header line `=<source>` and the validator's output to
    `assesment.log`;
  - if the file is missing, it prints one `console.error` diagnostic and carries on.

  The model is the ordered list of log writes and diagnostics. `Apply` and `Console` give the
  list its meaning as log-file contents and as the `console.error` lines.
- **The build pipeline** (`Orchestrator`). `build` runs these stages:
  - construct the unit tree;
  - render the name;
  - assemble `exp_info`;
  - when `options.plugins` is set, run the experiment-scope plugin hook and store its result
    as `exp_info.plugins`;
  - render the units;
  - run the post-build hook (again only with `plugins` set);
  - swap the staging directory into place.

  The model returns the trace of stages started, the final `exp_info` or the escaping error, and
  the filesystem before and after the swap.
- **The staging swap** (`FileTree`). The swap is `mv <build path> <build_dir>/tmp`, then
  `mv <build_dir>/tmp/* <build_dir>`, then `rm -rf <build_dir>/tmp`. It runs over an abstract
  filesystem: a finite map from paths (sequences of names) to entries. shelljs `mv` moves each
  source with one POSIX `rename` and ignores a rename that fails. So a missing source, a target
  that is a non-empty directory, a directory moved onto a file, or a file moved onto a directory
  leaves that source where it was (`FileTree.CanRename`).

Collaborators whose code is not part of this model are parameters:

- `LearningUnit.fromRecord` and the unit renderer `explu.build`;
- `name()`;
- the two plugin hooks;
- `Config.build_path` and `Config.Experiment.build_dir`;
- `fs.existsSync`, path resolution, and the text the linter and validator print.
- shelljs `mv` and `rm` and the `rename` call beneath them. Their code is not part of this model;
  `FileTree` states their documented behaviour.

A collaborator that throws returns `Err`, and the error ends `build` before the swap.

Behaviour of the program that is easy to misread, and that the model keeps as written:

- The selected content type is the misspelt `"assesment"`. The correctly spelt `"assessment"`
  is never selected.
- A missing assessment file appends nothing at all to `assesment.log`: no header line is written
  for it. The only trace of it is the console diagnostic.
- Repeated builds do not clean the canonical build directory first. An old entry whose name the
  new build does not produce survives the swap unchanged. An old file with the name of a new file
  is replaced by it, and so is an old empty directory with the name of a new directory. When the
  old and the new entry differ in kind, the rename fails and the new entry is deleted with `tmp`.
  An old non-empty directory with the name of a new entry
  makes that entry's rename fail: the old subtree stays, and the new one is deleted with `tmp`
  (`FileTree.RebuildKeepsStaleDirectory`, and the Findings below).
- The shell glob `*` does not match names that start with a dot. So a hidden top-level entry of
  the staging directory is not moved up and is deleted together with `tmp` (the last clause of
  `FileTree.StagingSwapPublishes`).
- `exp_info.src` is the constructor's `src` argument exactly as given, not a resolved path.
- `validate` re-`require`s the descriptor file. Node caches modules, so that call returns the
  same object as `this.descriptor`, and validation sees the units as augmented.
  `Validation.AugmentationInvisibleToValidation` shows the two synthetic units change nothing
  there.

## Model

| member | source | states |
|---|---|---|
| Units.IncludeFeedback | Experiment.js:165-175 | appends exactly one unit, a `task` labelled `Feedback` of content type `text` from `feedback.md` to `feedback.html`; all earlier units keep their order |
| Units.IncludeContributors | Experiment.js:177-186 | appends exactly one unit, a `task` labelled `Contributors` of content type `text` from `contributors.md` to `contributors.html`; all earlier units keep their order |
| Units.AugmentationNotIdempotent | Experiment.js:165-186 | calling either augmentation twice yields two identical trailing units, so the result differs from a single call |
| Units.AugmentationOrder | Experiment.js:165-186 | feedback-then-contributors ends with those two units in that order, the reverse call order reverses them, and the two descriptors differ |
| Validation.SelectionIsExactTag | Experiment.js:99-101 | a unit produces validation events iff its content type is exactly `"assesment"`; `"assessment"` produces none |
| Validation.NoSelectionNoEvents | Experiment.js:99-114 | the unit loop emits no event iff no unit carries the `"assesment"` content type |
| Validation.AssessmentEventsAppend | Experiment.js:99-114 | units are processed in descriptor order: the events of a concatenation are those of each part, in order |
| Validation.AssessmentEventsOnlyAppend | Experiment.js:104-111 | the unit loop only appends to `assesment.log` or prints a diagnostic; it never truncates and never writes another log |
| Validation.MissingFileContinues | Experiment.js:102-112 | a selected unit whose file is missing contributes exactly one diagnostic naming its resolved path, and the units after it are processed as usual |
| Validation.UnitLogEffect | Experiment.js:100-111 | one unit's events append its `=<source>` header and then the validator output to `assesment.log` when it is selected and its file exists, and change no log otherwise |
| Validation.AssessmentLogGrows | Experiment.js:102-109 | running the loop appends to `assesment.log`, for each selected unit whose file exists and in order, its `=<source>` header and the validator output; the other logs are unchanged |
| Validation.DiagnosticsAreMissingFiles | Experiment.js:102-112 | the `console.error` lines of the loop are one "does not exist" line per selected missing file, in descriptor order, and no others |
| Validation.ValidateLogs | Experiment.js:85-116 | after `validate`: `eslint.log` holds exactly the lint output if linting is on (else unchanged); `validate.log` and `assesment.log` are their old text followed by the new reports if `isExpDesc` is on (else unchanged) |
| Validation.ValidateTwiceAccumulates | Experiment.js:88-109 | with linting and descriptor validation on in both runs, two `validate` runs, each with its own tool output and units, leave the first run's and then the second run's descriptor and assessment reports after the old text of `validate.log` and `assesment.log`, and only the second run's lint output in `eslint.log` |
| Validation.ValidateGating | Experiment.js:88-97 | lint runs iff `isESLINT`; descriptor validation writes `validate.log` iff `isExpDesc`; without `isExpDesc` no `console.error` diagnostic is printed and only `eslint.log` is written; only `eslint.log` is ever truncated |
| Validation.AugmentationInvisibleToValidation | Experiment.js:94-101 | validating the descriptor after `includeFeedback` or `includeContributors` produces the same events as before |
| Validation.MissingQuizScenario | Experiment.js:93-112 | a text unit plus an assessment whose file is missing: the descriptor validator is run and one `console.error` diagnostic is printed, with nothing appended to `assesment.log` |
| FileTree.RerootSpec | Experiment.js:157 | after the move every entry of the source subtree is at the same relative path under the target with the same contents, entries elsewhere are untouched, and nothing else exists |
| FileTree.Rename | Experiment.js:157 | `mv from to` changes nothing when `from` is missing, when `to` lies inside `from`, when `from` would land on a non-empty directory, or when a directory would land on a file; with nothing at `to` the subtree is re-rooted there |
| FileTree.MoveUpSpec | Experiment.js:158-161 | `mv dir/* dest` places every entry under a glob-matched name whose rename succeeds at the same relative path under `dest` with the same contents, replacing only a same-named file by a file or a same-named empty directory by a directory; entries under names whose rename fails, hidden names and all other entries stay; nothing else exists |
| FileTree.Remove | Experiment.js:162 | `rm -rf` leaves nothing at or below the directory and every other entry untouched |
| FileTree.RerootKeepsNames | Experiment.js:156-159 | moving the staging directory to `tmp` keeps the set of top-level names the glob will move up |
| FileTree.StagingSwapPublishes | Experiment.js:150-162 | with no `tmp` entry in the canonical directory or at the top of the staging directory, and none of the moved names already in the canonical directory: `tmp` is gone afterwards; every glob-matched entry of the staging directory sits directly under the canonical directory with contents unchanged; every entry outside the staging directory is untouched; nothing else appears |
| FileTree.RebuildKeepsStaleDirectory | Experiment.js:157-162 | when a moved name already exists in the canonical directory as a non-empty directory, that old subtree survives unchanged, nothing of the new build lands below it, and every entry afterwards is an untouched old entry from outside the staging directory or a staged entry under another name, so nothing of the new subtree survives |
| FileTree.FreshSwapPublishes | Experiment.js:150-162 | the corrected swap, which first clears the canonical directory's entries under the moved names, publishes every glob-matched staged entry whatever an earlier build left, removes `tmp`, and keeps every other entry outside the staging directory |
| Orchestrator.Prepare | Experiment.js:129-144 | the stages before rendering run in order; `exp_info` carries the unit tree's menu, the rendered name, the constructor's `src` argument as given, and the build path plus one `/`; `plugins` is present iff plugins are on and then equals the experiment-scope hook's result for the context without it |
| Orchestrator.BuildStageOrder | Experiment.js:129-162 | the stages of `build` run in the fixed pipeline order, each at most once; a completed build ran 6 stages (8 with plugins) and ended with the three swap steps |
| Orchestrator.BuildPluginGating | Experiment.js:137-149 | with plugins off no hook runs and `exp_info` has no `plugins`; with plugins on `exp_info.plugins` is the experiment-scope hook's return value, and the renderer and post-build hook see that final `exp_info` |
| Orchestrator.BuildExpInfo | Experiment.js:130-135 | a completed build's `exp_info` has the unit tree's menu, the rendered name, the constructor's `src` argument as given, and `bp` equal to the build path followed by one `/` |
| Orchestrator.BuildFailureNoSwap | Experiment.js:124-162 | a build performs a move iff it completes; a failed build leaves the staged filesystem unswapped, and one that failed before the post-build hook leaves the filesystem as it started |
| Orchestrator.BuildPublishesStaging | Experiment.js:150-162 | after a completed build with no `tmp` in the way and none of the moved names already in the canonical build directory: `tmp` is gone, every glob-matched staged entry sits directly under the canonical build directory with its contents, and every entry outside the staging directory is untouched |
| Orchestrator.RebuildKeepsStaleOutput | Experiment.js:157-162 | a completed rebuild whose moved name is already a non-empty directory of the canonical build directory leaves that old subtree as it was and publishes nothing below it |

## Left out

- `init`, `registerPartials`, the constructor and `descriptorPath`/`contributorsPath`: directory creation, asset copies and partial registration through shelljs and Handlebars, with no logic beyond I/O. Validation and build take the staging directory's contents as given.
- `name()`: a file read plus Markdown rendering; it is an opaque `Result<string>`.
- `exp.js` (`copySources`, `copyPages`, `insertIframeResizer`, `buildExp`): unconditional shell copies and DOM editing.
- The internals of `LearningUnit.fromRecord`, `explu.build`, `Plugin.processExpScopePlugins`, `Plugin.processPostBuildPlugins` and `Config.build_path`: their code is not part of this model. They are fields of `Orchestrator.Collaborators`. The template host, lab data and options they receive are folded into them.
- The exact shell command strings and the linter's and validator's behaviour. Tool output is opaque text.
- The descriptor validator's argument: the command interpolates the descriptor object, which becomes the text `[object Object]`, so that validator never reads the descriptor file. The model only records that the validator is run and that its output is appended; what the output says is opaque.
- Validation.Console: models the `console.error` diagnostics only. `shell.exec` runs without `silent`, so whatever the linter or the validators write to standard error is echoed to the console as well; that text is not modelled.
- Validation.ValidateLogs: the log writes assume that the staging directory exists, as after `init`. When it is missing, the shell cannot open the redirection target, runs nothing and writes no log; that case is not modelled.
- Build options are booleans; JavaScript truthiness of arbitrary option values is not modelled.
- The header line is modelled as `=` + source + newline; word splitting or globbing by the shell of an unquoted `source` is not modelled.
- Orchestrator.BuildFailureNoSwap: a renderer or post-build hook that throws is modelled as leaving the filesystem it was given. Partial writes made before the exception are not modelled.
- FileTree.MoveUp: applies the renames of all glob-matched names at once, where shelljs runs them one after another in glob order. Distinct names have distinct sources and targets, and the one name whose target holds the other sources (`tmp` itself) is always refused, so the order does not change the result. This is argued here, not proved.
- FileTree.CanRename: follows POSIX `rename` on entry kinds only. A target whose parent directory is missing (ENOENT) is accepted by the model. Permissions, symbolic links, the copy-and-remove fallback for a move across devices, and shelljs's error messages are not modelled. A file entry with entries below it (not a well-formed tree) counts as a file.
- FileTree.StagingSwapPublishes: requires that `tmp` is free, the assumption stated in the source's comment, and that none of the moved names is already in the canonical directory, as on a first build. A rebuild that meets an old non-empty directory is stated by `FileTree.RebuildKeepsStaleDirectory`. A rebuild whose new file meets an old file of the same name, or whose new directory meets an old empty directory, replaces the old entry; when the kinds differ the rename fails and the new entry is deleted with `tmp`. Neither case gets a lemma of its own; `FileTree.MoveUpSpec` covers both.
- Orchestrator.BuildPublishesStaging: carries the same two assumptions as `FileTree.StagingSwapPublishes`, for the same reason.
- Plugins that mutate `exp_info` in place are not modelled: each hook is a function of the context it receives.
- `build_dir` is taken as one path segment. `Config.build_path` is taken to return the absolute form of the staging path as `path.resolve` writes it: `/` for the root, and otherwise each name preceded by `/` (`Orchestrator.Show`), since its code is not part of this model.
- Validation.UnitEvents: a unit without a `source` field makes `path.resolve` throw a `TypeError`, which escapes `validate` and stops the loop. Every `Units.UnitSpec` carries a source string, so that exception is not modelled.
- Nested unit lists: `validate` looks only at the top-level entries of `descriptor.units`. Units nested inside another unit are never examined, and `Units.Descriptor` has no nesting.

## Findings

| source | as written | input that shows it | evidently intended | confidence | as-written member | corrected member |
|---|---|---|---|---|---|---|
| Experiment.js:157-162 | each glob-matched name moves up with one `rename`, a failed rename is ignored, and `tmp` is then removed | an earlier build left `build/assets/old.css`; the new build stages `assets/new.css`; renaming `tmp/assets` onto the non-empty `build/assets` fails, so `rm -rf` deletes `new.css` and the old stylesheet is served | the new build's entries replace the earlier build's entries of the same name | medium; not executed | FileTree.RebuildKeepsStaleDirectory | FileTree.FreshSwapPublishes |

`Orchestrator.Build` keeps the swap as written (`FileTree.Swap`), since the model describes the
program. `FileTree.FreshSwap` is the corrected swap: it clears the colliding names before moving.

=== FILE: build.dfy ===
/** `build`: the orchestrator's pipeline, modelled as the ordered trace of the
    stages it runs, the `exp_info` record it assembles, and the filesystem
    before and after the staging swap. Every collaborator whose code is not
    part of this model (the unit tree, the name fragment, the plugin host,
    the unit renderer, `Config.build_path`) is a field of `Collaborators`. */
module Orchestrator {
  import opened Results
  import opened Units
  import opened Options
  import opened FileTree

  /** The `exp_info` object: rendered name, unit menu, source directory as the
      constructor received it, build path with a trailing separator, and the
      `plugins` property, absent (`None`) unless the experiment-scope hook ran. */
  datatype ExpInfo<M, P> = ExpInfo(name: string, menu: M, src: string, bp: string, plugins: Option<P>)

  /** The collaborators `build` calls. The template host, lab data and build
      options they also receive are fixed for one call and folded into them.
      A collaborator that throws returns `Err`. */
  datatype Collaborators<!M, !P> = Collaborators(
    srcText: string,                                             // the constructor's `src` argument, as given
    src: Path,                                                   // path.resolve(src), the experiment source directory
    buildDir: string,                                            // Config.Experiment.build_dir
    buildPath: Path,                                             // Config.build_path(src), the staging directory
    fromRecord: Descriptor -> Result<M>,                         // LearningUnit.fromRecord(..).units
    name: Result<string>,                                        // this.name()
    expScope: ExpInfo<M, P> -> Result<P>,                        // Plugin.processExpScopePlugins
    render: (ExpInfo<M, P>, FileSystem) -> Result<FileSystem>,   // explu.build
    postBuild: (ExpInfo<M, P>, FileSystem) -> Result<FileSystem> // Plugin.processPostBuildPlugins
  )

  /** One stage of `build`, recorded when it is started. */
  datatype Step<M, P> =
    | FromRecord
    | ReadName
    | ExpScopePlugins(context: ExpInfo<M, P>)
    | RenderUnits(context: ExpInfo<M, P>)
    | PostBuildPlugins(context: ExpInfo<M, P>)
    | MoveToTmp(from: Path, to: Path)
    | MoveUpFromTmp(from: Path, to: Path)
    | RemoveTmp(dir: Path)
  {
    predicate IsMove() {
      MoveToTmp? || MoveUpFromTmp? || RemoveTmp?
    }

    predicate IsPlugin() {
      ExpScopePlugins? || PostBuildPlugins?
    }
  }

  /** The result of one `build` call: the stages started, the final `exp_info`
      or the error that escaped, the filesystem as the rendering stages left it,
      and the filesystem at the end. */
  datatype BuildRun<M, P> = BuildRun(
    trace: seq<Step<M, P>>,
    outcome: Result<ExpInfo<M, P>>,
    staged: FileSystem,
    fs: FileSystem)

  /** A path as the string `path.resolve` yields for it: `/` for the root,
      and otherwise each name preceded by one `/`. */
  function Show(p: Path): string {
    if |p| == 0 then "/" else Joined(p)
  }

  /** Each name of `p` preceded by one `/`. */
  function Joined(p: Path): string {
    if |p| == 0 then "" else "/" + p[0] + Joined(p[1..])
  }

  /** `path.resolve(src, build_dir)`: the canonical build directory. */
  function Canonical<M, P>(c: Collaborators<M, P>): Path {
    c.src + [c.buildDir]
  }

  /** The position of each stage in the fixed pipeline. */
  function Rank<M, P>(s: Step<M, P>): nat {
    match s
    case FromRecord => 0
    case ReadName => 1
    case ExpScopePlugins(_) => 2
    case RenderUnits(_) => 3
    case PostBuildPlugins(_) => 4
    case MoveToTmp(_, _) => 5
    case MoveUpFromTmp(_, _) => 6
    case RemoveTmp(_) => 7
  }

  /** The stages appear in pipeline order, each at most once. */
  predicate InStageOrder<M, P>(trace: seq<Step<M, P>>) {
    forall i, j | 0 <= i < j < |trace| :: Rank(trace[i]) < Rank(trace[j])
  }

  /** The three swap steps, in the order `build` runs them. */
  function SwapSteps<M, P>(c: Collaborators<M, P>): seq<Step<M, P>> {
    [MoveToTmp(c.buildPath, TmpDir(Canonical(c))),
     MoveUpFromTmp(TmpDir(Canonical(c)), Canonical(c)),
     RemoveTmp(TmpDir(Canonical(c)))]
  }

  /** Every stage of `tail` comes after every stage of `head` in the pipeline. */
  predicate Precedes<M, P>(head: seq<Step<M, P>>, tail: seq<Step<M, P>>) {
    forall i, j | 0 <= i < |head| && 0 <= j < |tail| :: Rank(head[i]) < Rank(tail[j])
  }

  lemma OrderConcat<M, P>(head: seq<Step<M, P>>, tail: seq<Step<M, P>>)
    requires InStageOrder(head) && InStageOrder(tail) && Precedes(head, tail)
    ensures InStageOrder(head + tail)
  {
  }

  /** The stages a completed render runs before the swap: the unit renderer,
      then the post-build hook when plugins are on. */
  function RenderHead<M, P>(info: ExpInfo<M, P>, plugins: bool): seq<Step<M, P>> {
    if plugins then [RenderUnits(info), PostBuildPlugins(info)] else [RenderUnits(info)]
  }

  /** The stages from rendering onwards: the unit tree is rendered, then the
      post-build hook runs when plugins are on, then the swap; an error from
      either collaborator ends the build before the swap. */
  function RenderAndPublish<M, P>(c: Collaborators<M, P>, opts: BuildOptions, info: ExpInfo<M, P>, fs: FileSystem): (r: BuildRun<M, P>)
    ensures |r.trace| > 0 && r.trace[0] == RenderUnits(info)
    ensures r.outcome.Ok? ==>
      && r.outcome == Ok(info)
      && r.trace == RenderHead(info, opts.plugins) + SwapSteps(c)
      && r.fs == Swap(r.staged, Canonical(c), c.buildPath)
    ensures r.outcome.Err? ==>
      && r.fs == r.staged
      && (r.trace == [RenderUnits(info)] || (opts.plugins && r.trace == RenderHead(info, true)))
      && (c.render(info, fs).Err? ==> r.staged == fs)
  {
    match c.render(info, fs)
    case Err(e) => BuildRun([RenderUnits(info)], Err(e), fs, fs)
    case Ok(rendered) =>
      var head := RenderHead(info, opts.plugins);
      match (if opts.plugins then c.postBuild(info, rendered) else Ok(rendered))
      case Err(e) => BuildRun(head, Err(e), rendered, rendered)
      case Ok(processed) => BuildRun(head + SwapSteps(c), Ok(info), processed, Swap(processed, Canonical(c), c.buildPath))
  }

  /** The stages before rendering and the `exp_info` they produce, or the
      error that escaped one of them. */
  datatype Prepared<M, P> = Prepared(trace: seq<Step<M, P>>, context: Result<ExpInfo<M, P>>)

  /** The unit tree, the `exp_info` record and, when plugins are on, the
      experiment-scope hook whose result becomes `exp_info.plugins`. */
  function Prepare<M, P>(c: Collaborators<M, P>, d: Descriptor, opts: BuildOptions): (p: Prepared<M, P>)
    ensures |p.trace| > 0 && p.trace[0] == FromRecord && InStageOrder(p.trace)
    ensures forall i | 0 <= i < |p.trace| :: Rank(p.trace[i]) < 3
    ensures forall i | 0 <= i < |p.trace| && p.trace[i].IsPlugin() ::
      opts.plugins && p.trace[i].context.plugins == None
    ensures p.context.Ok? ==>
      var info := p.context.value;
      && |p.trace| == (if opts.plugins then 3 else 2)
      && c.fromRecord(d) == Ok(info.menu)
      && c.name == Ok(info.name)
      && info.src == c.srcText
      && |info.bp| == |Show(c.buildPath)| + 1
      && info.bp[..|info.bp| - 1] == Show(c.buildPath)
      && info.bp[|info.bp| - 1] == '/'
      && (opts.plugins <==> info.plugins.Some?)
      && (opts.plugins ==> c.expScope(info.(plugins := None)) == Ok(info.plugins.value))
  {
    match c.fromRecord(d)
    case Err(e) => Prepared([FromRecord], Err(e))
    case Ok(menu) =>
      match c.name
      case Err(e) => Prepared([FromRecord, ReadName], Err(e))
      case Ok(name) =>
        var info := ExpInfo(name, menu, c.srcText, Show(c.buildPath) + "/", None);
        if opts.plugins then
          match c.expScope(info)
          case Err(e) => Prepared([FromRecord, ReadName, ExpScopePlugins(info)], Err(e))
          case Ok(data) => Prepared([FromRecord, ReadName, ExpScopePlugins(info)], Ok(info.(plugins := Some(data))))
        else
          Prepared([FromRecord, ReadName], Ok(info))
  }

  /** `build(hb, lab_data, options)` on the experiment's current descriptor. */
  function Build<M, P>(c: Collaborators<M, P>, d: Descriptor, opts: BuildOptions, fs: FileSystem): BuildRun<M, P> {
    var prepared := Prepare(c, d, opts);
    match prepared.context
    case Err(e) => BuildRun(prepared.trace, Err(e), fs, fs)
    case Ok(info) =>
      var rest := RenderAndPublish(c, opts, info, fs);
      rest.(trace := prepared.trace + rest.trace)
  }

  // ---- Properties of `build` ------------------------------------------------

  /** The stages run in the fixed pipeline order, each at most once, starting
      with the unit tree; a build that completes ran every stage its options
      call for, the two plugin hooks only when `plugins` is on, and ends with
      the three swap steps. */
  lemma BuildStageOrder<M, P>(c: Collaborators<M, P>, d: Descriptor, opts: BuildOptions, fs: FileSystem)
    ensures var r := Build(c, d, opts, fs);
      |r.trace| > 0 && r.trace[0] == FromRecord && InStageOrder(r.trace)
    ensures var r := Build(c, d, opts, fs);
      r.outcome.Ok? ==>
        && |r.trace| == (if opts.plugins then 8 else 6)
        && r.trace[|r.trace| - 3..] == SwapSteps(c)
  {
    var prepared := Prepare(c, d, opts);
    BuildShape(c, d, opts, fs);
    if prepared.context.Ok? {
      var info := prepared.context.value;
      var rest := RenderAndPublish(c, opts, info, fs);
      RestOrdered(c, opts, info, fs);
      JoinedOrder(prepared.trace, rest.trace);
      if rest.outcome.Ok? {
        SuffixOfJoin(RenderHead(info, opts.plugins), SwapSteps(c), 3);
        SuffixOfJoin(prepared.trace, rest.trace, 3);
      }
    }
  }

  /** A prepared trace followed by a rendering trace is in pipeline order and
      starts with the unit tree. */
  lemma JoinedOrder<M, P>(head: seq<Step<M, P>>, tail: seq<Step<M, P>>)
    requires |head| > 0 && head[0] == FromRecord && InStageOrder(head) && InStageOrder(tail)
    requires forall i | 0 <= i < |head| :: Rank(head[i]) < 3
    requires forall j | 0 <= j < |tail| :: Rank(tail[j]) >= 3
    ensures |head + tail| > 0 && (head + tail)[0] == FromRecord && InStageOrder(head + tail)
  {
    assert Precedes(head, tail);
    OrderConcat(head, tail);
  }

  /** The last `n` stages of a joined trace are the last `n` of its tail. */
  lemma SuffixOfJoin<M, P>(head: seq<Step<M, P>>, tail: seq<Step<M, P>>, n: nat)
    requires n <= |tail|
    ensures (head + tail)[|head + tail| - n..] == tail[|tail| - n..]
  {
  }

  /** The traces the stages from rendering onwards can leave are in pipeline
      order and all ranked after the experiment-scope hook. */
  lemma TailShapesOrdered<M, P>(c: Collaborators<M, P>, info: ExpInfo<M, P>, plugins: bool, rest: seq<Step<M, P>>)
    requires rest == [RenderUnits(info)] || rest == RenderHead(info, plugins) || rest == RenderHead(info, plugins) + SwapSteps(c)
    ensures InStageOrder(rest) && forall j | 0 <= j < |rest| :: Rank(rest[j]) >= 3
  {
    var head := RenderHead(info, plugins);
    var swap := SwapSteps(c);
    if rest == head + swap {
      assert InStageOrder(head) && InStageOrder(swap) && Precedes(head, swap);
      OrderConcat(head, swap);
    } else if rest == head {
      assert InStageOrder(head);
    }
  }

  /** The stages from rendering onwards are ordered and all come after the
      unit tree, the name and the experiment-scope hook. */
  lemma RestOrdered<M, P>(c: Collaborators<M, P>, opts: BuildOptions, info: ExpInfo<M, P>, fs: FileSystem)
    ensures var rest := RenderAndPublish(c, opts, info, fs).trace;
      InStageOrder(rest) && forall j | 0 <= j < |rest| :: Rank(rest[j]) >= 3
  {
    var r := RenderAndPublish(c, opts, info, fs);
    TailShapesOrdered(c, info, opts.plugins, r.trace);
  }

  /** How `Build` joins the stages before rendering and the stages from
      rendering onwards. */
  lemma BuildShape<M, P>(c: Collaborators<M, P>, d: Descriptor, opts: BuildOptions, fs: FileSystem)
    ensures var r := Build(c, d, opts, fs);
      var prepared := Prepare(c, d, opts);
      && (prepared.context.Err? ==> r.trace == prepared.trace && r.outcome.Err?)
      && (prepared.context.Ok? ==>
            var rest := RenderAndPublish(c, opts, prepared.context.value, fs);
            r.trace == prepared.trace + rest.trace && r.outcome == rest.outcome)
  {
  }

  /** Joining a prepared trace and a rendering trace: hooks stay gated, the
      experiment-scope hook sees no `plugins`, and the renderer and post-build
      hook see `info`. */
  lemma JoinedContexts<M, P>(head: seq<Step<M, P>>, tail: seq<Step<M, P>>, plugins: bool, info: ExpInfo<M, P>)
    requires forall i | 0 <= i < |head| :: Rank(head[i]) < 3
    requires forall i | 0 <= i < |head| && head[i].IsPlugin() :: plugins && head[i].context.plugins == None
    requires forall j | 0 <= j < |tail| ::
      && (tail[j].IsPlugin() ==> plugins && tail[j].PostBuildPlugins?)
      && ((tail[j].RenderUnits? || tail[j].PostBuildPlugins?) ==> tail[j].context == info)
    ensures forall i | 0 <= i < |head + tail| ::
      && ((head + tail)[i].IsPlugin() ==> plugins)
      && ((head + tail)[i].ExpScopePlugins? ==> (head + tail)[i].context.plugins == None)
      && (((head + tail)[i].RenderUnits? || (head + tail)[i].PostBuildPlugins?) ==> (head + tail)[i].context == info)
  {
    forall i | 0 <= i < |head + tail|
      ensures (head + tail)[i] == if i < |head| then head[i] else tail[i - |head|]
    {
    }
  }

  /** The hook stages of a build: none without plugins, the experiment-scope
      hook always sees `exp_info` without `plugins`, and in a completed build
      the renderer and post-build hook see the final `exp_info`. */
  lemma BuildTraceContexts<M, P>(c: Collaborators<M, P>, d: Descriptor, opts: BuildOptions, fs: FileSystem)
    ensures var r := Build(c, d, opts, fs);
      forall i | 0 <= i < |r.trace| ::
        && (r.trace[i].IsPlugin() ==> opts.plugins)
        && (r.trace[i].ExpScopePlugins? ==> r.trace[i].context.plugins == None)
        && (r.outcome.Ok? && (r.trace[i].RenderUnits? || r.trace[i].PostBuildPlugins?) ==> r.trace[i].context == r.outcome.value)
  {
    var prepared := Prepare(c, d, opts);
    BuildShape(c, d, opts, fs);
    if prepared.context.Ok? {
      var info := prepared.context.value;
      RestContexts(c, opts, info, fs);
      JoinedContexts(prepared.trace, RenderAndPublish(c, opts, info, fs).trace, opts.plugins, info);
    }
  }

  /** A completed build's `exp_info` has `plugins` exactly when plugins are
      on, and then it is what the experiment-scope hook returned. */
  lemma BuildPluginsField<M, P>(c: Collaborators<M, P>, d: Descriptor, opts: BuildOptions, fs: FileSystem)
    ensures var r := Build(c, d, opts, fs);
      r.outcome.Ok? ==> (opts.plugins <==> r.outcome.value.plugins.Some?)
    ensures var r := Build(c, d, opts, fs);
      r.outcome.Ok? && opts.plugins ==>
        c.expScope(r.outcome.value.(plugins := None)) == Ok(r.outcome.value.plugins.value)
  {
    BuildShape(c, d, opts, fs);
  }

  /** Plugin gating: with `plugins` off neither hook is invoked and `exp_info`
      has no `plugins` property; with it on, `exp_info.plugins` is exactly what
      the experiment-scope hook returned for the context without it, and the
      unit renderer and the post-build hook both see that final `exp_info`. */
  lemma BuildPluginGating<M, P>(c: Collaborators<M, P>, d: Descriptor, opts: BuildOptions, fs: FileSystem)
    ensures var r := Build(c, d, opts, fs);
      !opts.plugins ==> forall i | 0 <= i < |r.trace| :: !r.trace[i].IsPlugin()
    ensures var r := Build(c, d, opts, fs);
      r.outcome.Ok? ==> (opts.plugins <==> r.outcome.value.plugins.Some?)
    ensures var r := Build(c, d, opts, fs);
      r.outcome.Ok? && opts.plugins ==>
        c.expScope(r.outcome.value.(plugins := None)) == Ok(r.outcome.value.plugins.value)
    ensures var r := Build(c, d, opts, fs);
      forall i | 0 <= i < |r.trace| && r.trace[i].ExpScopePlugins? :: r.trace[i].context.plugins == None
    ensures var r := Build(c, d, opts, fs);
      r.outcome.Ok? ==>
        forall i | 0 <= i < |r.trace| && (r.trace[i].RenderUnits? || r.trace[i].PostBuildPlugins?) ::
          r.trace[i].context == r.outcome.value
  {
    BuildTraceContexts(c, d, opts, fs);
    BuildPluginsField(c, d, opts, fs);
  }

  /** Only the post-build hook runs from rendering onwards, only when plugins
      are on, and both it and the renderer receive the prepared `exp_info`. */
  lemma RestContexts<M, P>(c: Collaborators<M, P>, opts: BuildOptions, info: ExpInfo<M, P>, fs: FileSystem)
    ensures var rest := RenderAndPublish(c, opts, info, fs).trace;
      forall j | 0 <= j < |rest| ::
        && (rest[j].IsPlugin() ==> opts.plugins && rest[j].PostBuildPlugins?)
        && ((rest[j].RenderUnits? || rest[j].PostBuildPlugins?) ==> rest[j].context == info)
  {
    var r := RenderAndPublish(c, opts, info, fs);
    var head := RenderHead(info, opts.plugins);
    if r.outcome.Ok? {
      assert r.trace == head + SwapSteps(c);
      forall j | 0 <= j < |r.trace|
        ensures r.trace[j] == (if j < |head| then head[j] else SwapSteps(c)[j - |head|])
      {
      }
    }
  }

  /** The `exp_info` of a completed build: the unit tree's menu, the rendered
      name, the source directory exactly as the constructor received it, and
      the build path followed by one `/`. */
  lemma BuildExpInfo<M, P>(c: Collaborators<M, P>, d: Descriptor, opts: BuildOptions, fs: FileSystem)
    ensures var r := Build(c, d, opts, fs);
      r.outcome.Ok? ==>
        var info := r.outcome.value;
        && c.fromRecord(d) == Ok(info.menu)
        && c.name == Ok(info.name)
        && info.src == c.srcText
        && |info.bp| == |Show(c.buildPath)| + 1
        && info.bp[..|info.bp| - 1] == Show(c.buildPath)
        && info.bp[|info.bp| - 1] == '/'
  {
  }

  /** The stages before rendering never move anything. */
  lemma PrepareMovesNothing<M, P>(c: Collaborators<M, P>, d: Descriptor, opts: BuildOptions)
    ensures var trace := Prepare(c, d, opts).trace;
      forall i | 0 <= i < |trace| :: !trace[i].IsMove()
  {
    var trace := Prepare(c, d, opts).trace;
    forall i | 0 <= i < |trace|
      ensures !trace[i].IsMove()
    {
      assert Rank(trace[i]) < 3;
    }
  }

  /** A build that fails never reaches the swap: none of its stages is a move. */
  lemma FailedBuildMovesNothing<M, P>(c: Collaborators<M, P>, d: Descriptor, opts: BuildOptions, fs: FileSystem)
    ensures var r := Build(c, d, opts, fs);
      r.outcome.Err? ==> forall i | 0 <= i < |r.trace| :: !r.trace[i].IsMove()
  {
    var prepared := Prepare(c, d, opts);
    var r := Build(c, d, opts, fs);
    PrepareMovesNothing(c, d, opts);
    if prepared.context.Ok? && r.outcome.Err? {
      var rest := RenderAndPublish(c, opts, prepared.context.value, fs);
      assert r.trace == prepared.trace + rest.trace;
      forall i | 0 <= i < |r.trace|
        ensures !r.trace[i].IsMove()
      {
        if i >= |prepared.trace| {
          assert r.trace[i] == rest.trace[i - |prepared.trace|];
        }
      }
    }
  }

  /** A collaborator's error ends the build before any move: the staging
      directory is never swapped, and when the error comes from the unit tree,
      the name, the experiment-scope hook or the renderer, the filesystem is
      the one the build started from. Conversely a completed build swaps. */
  lemma BuildFailureNoSwap<M, P>(c: Collaborators<M, P>, d: Descriptor, opts: BuildOptions, fs: FileSystem)
    ensures var r := Build(c, d, opts, fs);
      r.outcome.Ok? <==> exists i | 0 <= i < |r.trace| :: r.trace[i].IsMove()
    ensures var r := Build(c, d, opts, fs);
      r.outcome.Err? ==> r.fs == r.staged
    ensures var r := Build(c, d, opts, fs);
      r.outcome.Err? && (forall i | 0 <= i < |r.trace| :: !r.trace[i].PostBuildPlugins?) ==> r.fs == fs
    ensures var r := Build(c, d, opts, fs);
      r.outcome.Ok? ==> r.fs == Swap(r.staged, Canonical(c), c.buildPath)
  {
    var prepared := Prepare(c, d, opts);
    var r := Build(c, d, opts, fs);
    FailedBuildMovesNothing(c, d, opts, fs);
    if prepared.context.Ok? {
      var info := prepared.context.value;
      var rest := RenderAndPublish(c, opts, info, fs);
      assert r.trace == prepared.trace + rest.trace;
      if r.outcome.Ok? {
        assert r.trace[|r.trace| - 3].IsMove();
      } else if c.render(info, fs).Ok? {
        assert r.trace[|prepared.trace| + 1].PostBuildPlugins?;
      }
    }
  }

  /** A completed build publishes the staging directory. Under the source's
      assumption that nothing named `tmp` is in the way, and when the
      canonical build directory holds none of the names the build moves up
      (a first build): `tmp` is gone afterwards; every entry the glob over the
      staging directory matches sits directly under the canonical build
      directory with its contents unchanged; and every entry outside the
      staging directory is untouched. */
  lemma BuildPublishesStaging<M, P>(c: Collaborators<M, P>, d: Descriptor, opts: BuildOptions, fs: FileSystem)
    requires Build(c, d, opts, fs).outcome.Ok?
    requires TmpIsFree(Build(c, d, opts, fs).staged, Canonical(c), c.buildPath)
    requires FreshNames(Build(c, d, opts, fs).staged, Canonical(c), c.buildPath)
    ensures var r := Build(c, d, opts, fs);
      Vacant(r.fs, TmpDir(Canonical(c)))
    ensures var r := Build(c, d, opts, fs);
      forall p | p in r.staged && Globbed(c.buildPath, p) ::
        Canonical(c) + p[|c.buildPath|..] in r.fs && r.fs[Canonical(c) + p[|c.buildPath|..]] == r.staged[p]
    ensures var r := Build(c, d, opts, fs);
      forall p | p in r.staged && !(c.buildPath <= p) :: p in r.fs && r.fs[p] == r.staged[p]
  {
    var r := Build(c, d, opts, fs);
    BuildFailureNoSwap(c, d, opts, fs);
    StagingSwapPublishes(r.staged, Canonical(c), c.buildPath);
  }

  /** A rebuild over an earlier build: when a name the glob matches in the
      staging directory is already a non-empty directory of the canonical
      build directory (`stale` lies inside it), the completed build leaves
      that old subtree as it was and publishes nothing below it. */
  lemma RebuildKeepsStaleOutput<M, P>(c: Collaborators<M, P>, d: Descriptor, opts: BuildOptions, fs: FileSystem, name: string, stale: Path)
    requires Build(c, d, opts, fs).outcome.Ok?
    requires TmpIsFree(Build(c, d, opts, fs).staged, Canonical(c), c.buildPath)
    requires name in VisibleNames(Build(c, d, opts, fs).staged, c.buildPath)
    requires var staged := Build(c, d, opts, fs).staged;
      stale in staged && Canonical(c) + [name] < stale && !(c.buildPath <= stale)
    ensures var r := Build(c, d, opts, fs);
      forall k | k in r.fs && Canonical(c) + [name] <= k :: k in r.staged && r.fs[k] == r.staged[k]
    ensures var r := Build(c, d, opts, fs);
      forall p | p in r.staged && Canonical(c) + [name] <= p && !(c.buildPath <= p) :: p in r.fs && r.fs[p] == r.staged[p]
  {
    var r := Build(c, d, opts, fs);
    BuildFailureNoSwap(c, d, opts, fs);
    RebuildKeepsStaleDirectory(r.staged, Canonical(c), c.buildPath, name, stale);
  }
}

=== FILE: filetree.dfy ===
/** An abstract filesystem, a finite map from paths (sequences of names) to
    entries, and the three shell operations the staging swap performs on it:
    moving a directory, moving every name a glob matches inside a directory,
    and removing a directory recursively. */
module FileTree {

  type Path = seq<string>

  datatype Entry = Dir | File(content: string)

  type FileSystem = map<Path, Entry>

  /** A name the shell glob `*` does not match: it starts with a dot. */
  predicate Hidden(name: string) {
    |name| > 0 && name[0] == '.'
  }

  /** `p` lies strictly below `dir`, under a top-level name the glob `*` matches there. */
  predicate Globbed(dir: Path, p: Path) {
    dir < p && !Hidden(p[|dir|])
  }

  /** Nothing exists at or below `dir`. */
  predicate Vacant(fs: FileSystem, dir: Path) {
    forall p | p in fs :: !(dir <= p)
  }

  /** The top-level names below `dir` that the glob `*` expands to there. */
  function VisibleNames(fs: FileSystem, dir: Path): set<string> {
    set p | p in fs && Globbed(dir, p) :: p[|dir|]
  }

  /** Nothing exists strictly below `q`: it is absent, a file or an empty directory. */
  predicate Childless(fs: FileSystem, q: Path) {
    forall p | p in fs :: !(q < p)
  }

  /** The paths the entries at or below `from` take when re-rooted at `to`. */
  function RerootedKeys(fs: FileSystem, from: Path, to: Path): set<Path> {
    set p | p in fs && from <= p :: to + p[|from|..]
  }

  /** Each re-rooted path comes from an entry at or below `from`. */
  lemma RerootedKeysOrigin(fs: FileSystem, from: Path, to: Path)
    ensures forall k | k in RerootedKeys(fs, from, to) :: to <= k && from + k[|to|..] in fs && from <= from + k[|to|..]
  {
    forall k | k in RerootedKeys(fs, from, to)
      ensures to <= k && from + k[|to|..] in fs && from <= from + k[|to|..]
    {
      var p :| p in fs && from <= p && k == to + p[|from|..];
      assert k[|to|..] == p[|from|..];
      assert from + p[|from|..] == p;
    }
  }

  /** Moves the subtree at `from` to `to`, replacing whatever was at or below `to`. */
  function Reroot(fs: FileSystem, from: Path, to: Path): FileSystem {
    RerootedKeysOrigin(fs, from, to);
    var kept := map p | p in fs && !(from <= p) && !(to <= p) :: fs[p];
    var moved := map k | k in RerootedKeys(fs, from, to) :: fs[from + k[|to|..]];
    kept + moved
  }

  /** Re-rooting: every entry at or below `from` reappears below `to` with the
      same relative path and entry; every entry outside both subtrees stays;
      and nothing else exists afterwards. */
  lemma RerootSpec(fs: FileSystem, from: Path, to: Path)
    ensures var r := Reroot(fs, from, to);
      forall p | p in fs && from <= p :: to + p[|from|..] in r && r[to + p[|from|..]] == fs[p]
    ensures var r := Reroot(fs, from, to);
      forall p | p in fs && !(from <= p) && !(to <= p) :: p in r && r[p] == fs[p]
    ensures var r := Reroot(fs, from, to);
      forall k | k in r ::
        (k in fs && !(from <= k) && !(to <= k) && r[k] == fs[k])
        || (to <= k && from + k[|to|..] in fs && from <= from + k[|to|..] && r[k] == fs[from + k[|to|..]])
  {
    var r := Reroot(fs, from, to);
    RerootedKeysOrigin(fs, from, to);
    forall p | p in fs && from <= p
      ensures to + p[|from|..] in r && r[to + p[|from|..]] == fs[p]
    {
      var k := to + p[|from|..];
      assert k in RerootedKeys(fs, from, to);
      assert k[|to|..] == p[|from|..];
      assert from + p[|from|..] == p;
    }
  }

  /** Whether `rename(src, tgt)` succeeds, as POSIX `rename` decides: the
      source exists, the target does not lie inside the source, the target is
      not a non-empty directory, and a target that exists is of the same kind
      as the source (a file replaces a file, a directory an empty directory). */
  predicate CanRename(fs: FileSystem, src: Path, tgt: Path) {
    && !Vacant(fs, src)
    && !(src <= tgt)
    && Childless(fs, tgt)
    && (tgt in fs ==> (fs[tgt].Dir? <==> !(src in fs && fs[src].File?)))
  }

  /** Where `mv from to` puts `from`: inside `to` under its own last name when
      `to` is an existing directory, otherwise at `to` itself. */
  function Target(fs: FileSystem, from: Path, to: Path): Path {
    if |from| > 0 && to in fs && fs[to].Dir? then to + [from[|from| - 1]] else to
  }

  /** `mv from to` is one rename, and a rename that fails changes nothing
      because its error is ignored: a missing source, a move into the source's
      own subtree, a target that is a non-empty directory and a directory
      moved onto a file all leave the filesystem as it was. */
  function Rename(fs: FileSystem, from: Path, to: Path): (r: FileSystem)
    ensures Vacant(fs, from) ==> r == fs
    ensures from <= to ==> r == fs
    ensures !Vacant(fs, from) && !(from <= to) && Vacant(fs, to) ==> r == Reroot(fs, from, to)
    ensures |from| > 0 && to in fs && fs[to].Dir? && !Childless(fs, to + [from[|from| - 1]]) ==> r == fs
    ensures to in fs && fs[to].File? && !(from in fs && fs[from].File?) ==> r == fs
  {
    var target := Target(fs, from, to);
    if CanRename(fs, from, target) then Reroot(fs, from, target) else fs
  }

  /** Re-rooting a subtree that does not exist onto a place that is free changes nothing. */
  lemma RerootNothing(fs: FileSystem, from: Path, to: Path)
    requires Vacant(fs, from) && Vacant(fs, to)
    ensures Reroot(fs, from, to) == fs
  {
    var r := Reroot(fs, from, to);
    RerootSpec(fs, from, to);
    assert forall k | k in r :: k in fs && r[k] == fs[k];
  }

  /** The top-level names below `dir` that moving the glob `*` into `dest`
      actually moves: each is renamed on its own to the same name in `dest`,
      and a name whose rename fails stays where it was. */
  function Moving(fs: FileSystem, dir: Path, dest: Path): set<string> {
    set c | c in VisibleNames(fs, dir) && CanRename(fs, dir + [c], dest + [c])
  }

  /** `p` lies below `dir` under a name that moves. */
  predicate Carried(fs: FileSystem, dir: Path, dest: Path, p: Path) {
    dir < p && p[|dir|] in Moving(fs, dir, dest)
  }

  /** `p` lies below `dest` under a name that moves there, so it is replaced. */
  predicate Replaced(fs: FileSystem, dir: Path, dest: Path, p: Path) {
    dest < p && p[|dest|] in Moving(fs, dir, dest)
  }

  /** The paths the moving entries take below `dest`. */
  function LandedKeys(fs: FileSystem, dir: Path, dest: Path): set<Path> {
    set p | p in fs && Carried(fs, dir, dest, p) :: dest + p[|dir|..]
  }

  /** Each landed path comes from a carried entry below `dir`. */
  lemma LandedKeysOrigin(fs: FileSystem, dir: Path, dest: Path)
    ensures forall k | k in LandedKeys(fs, dir, dest) ::
      dest < k && dir + k[|dest|..] in fs && Carried(fs, dir, dest, dir + k[|dest|..])
  {
    forall k | k in LandedKeys(fs, dir, dest)
      ensures dest < k && dir + k[|dest|..] in fs && Carried(fs, dir, dest, dir + k[|dest|..])
    {
      var p :| p in fs && Carried(fs, dir, dest, p) && k == dest + p[|dir|..];
      assert k[|dest|..] == p[|dir|..];
      assert dir + p[|dir|..] == p;
    }
  }

  /** Moving every name the glob `*` matches in `dir` up into `dest`: a name
      whose rename succeeds moves with its whole subtree and replaces a
      same-named file or empty directory of `dest`; a name whose rename fails,
      and every hidden name, stays in `dir`. The renames are applied together;
      distinct names have distinct sources and targets. */
  function MoveUp(fs: FileSystem, dir: Path, dest: Path): FileSystem {
    LandedKeysOrigin(fs, dir, dest);
    var kept := map p | p in fs && !Carried(fs, dir, dest, p) && !Replaced(fs, dir, dest, p) :: fs[p];
    var moved := map k | k in LandedKeys(fs, dir, dest) :: fs[dir + k[|dest|..]];
    kept + moved
  }

  /** Moving up: every carried entry lands below `dest` with the same relative
      path and entry; entries neither carried nor replaced stay; nothing else
      exists afterwards. */
  lemma MoveUpSpec(fs: FileSystem, dir: Path, dest: Path)
    ensures var r := MoveUp(fs, dir, dest);
      forall p | p in fs && Carried(fs, dir, dest, p) :: dest + p[|dir|..] in r && r[dest + p[|dir|..]] == fs[p]
    ensures var r := MoveUp(fs, dir, dest);
      forall p | p in fs && !Carried(fs, dir, dest, p) && !Replaced(fs, dir, dest, p) :: p in r && r[p] == fs[p]
    ensures var r := MoveUp(fs, dir, dest);
      forall k | k in r ::
        (k in fs && !Carried(fs, dir, dest, k) && !Replaced(fs, dir, dest, k) && r[k] == fs[k])
        || (dest < k && dir + k[|dest|..] in fs && Carried(fs, dir, dest, dir + k[|dest|..]) && r[k] == fs[dir + k[|dest|..]])
  {
    var r := MoveUp(fs, dir, dest);
    LandedKeysOrigin(fs, dir, dest);
    forall p | p in fs && Carried(fs, dir, dest, p)
      ensures dest + p[|dir|..] in r && r[dest + p[|dir|..]] == fs[p]
    {
      var k := dest + p[|dir|..];
      assert k in LandedKeys(fs, dir, dest);
      assert k[|dest|..] == p[|dir|..];
      assert dir + p[|dir|..] == p;
    }
  }

  /** `rm -rf dir`: every entry at or below `dir` disappears, the rest is untouched. */
  function Remove(fs: FileSystem, dir: Path): (r: FileSystem)
    ensures Vacant(r, dir)
    ensures forall p | p in fs && !(dir <= p) :: p in r && r[p] == fs[p]
    ensures forall k | k in r :: k in fs
  {
    map p | p in fs && !(dir <= p) :: fs[p]
  }

  /** The temporary sibling the staging directory passes through. */
  function TmpDir(canonical: Path): Path {
    canonical + ["tmp"]
  }

  /** The staging swap: move the staging directory to `tmp`, move every name
      the glob `*` matches in `tmp` up into the canonical directory, then
      remove `tmp`. */
  function Swap(fs: FileSystem, canonical: Path, staging: Path): FileSystem {
    var tmp := TmpDir(canonical);
    Remove(MoveUp(Rename(fs, staging, tmp), tmp, canonical), tmp)
  }

  /** The assumption the source states for the swap: the canonical directory
      holds no `tmp` entry, the staging directory has no top-level `tmp`
      entry, and the staging directory is not `tmp` or above it. */
  predicate TmpIsFree(fs: FileSystem, canonical: Path, staging: Path) {
    && Vacant(fs, TmpDir(canonical))
    && (forall p | p in fs && staging < p :: p[|staging|] != "tmp")
    && !(staging <= TmpDir(canonical))
  }

  /** No name the glob matches in the staging directory exists yet in the
      canonical directory, outside the staging directory itself. */
  predicate FreshNames(fs: FileSystem, canonical: Path, staging: Path) {
    forall p | p in fs && canonical < p && !(staging <= p) :: p[|canonical|] !in VisibleNames(fs, staging)
  }

  /** Renaming the staging directory to `tmp` keeps its visible top-level names. */
  lemma RerootKeepsNames(fs: FileSystem, from: Path, to: Path)
    requires Vacant(fs, to)
    ensures VisibleNames(Reroot(fs, from, to), to) == VisibleNames(fs, from)
  {
    var r := Reroot(fs, from, to);
    RerootSpec(fs, from, to);
    forall c | c in VisibleNames(fs, from)
      ensures c in VisibleNames(r, to)
    {
      var p :| p in fs && Globbed(from, p) && p[|from|] == c;
      var k := to + p[|from|..];
      assert k in r && Globbed(to, k) && k[|to|] == c;
    }
    forall c | c in VisibleNames(r, to)
      ensures c in VisibleNames(fs, from)
    {
      var k :| k in r && Globbed(to, k) && k[|to|] == c;
      assert !(k in fs) by {
        assert to <= k;
      }
      var p := from + k[|to|..];
      assert p in fs && Globbed(from, p) && p[|from|] == c;
    }
  }

  /** When `tmp` is free, the first step of the swap is a plain re-rooting,
      whether or not the staging directory exists. */
  lemma SwapFirstStep(fs: FileSystem, canonical: Path, staging: Path)
    requires TmpIsFree(fs, canonical, staging)
    ensures Rename(fs, staging, TmpDir(canonical)) == Reroot(fs, staging, TmpDir(canonical))
  {
    if Vacant(fs, staging) {
      RerootNothing(fs, staging, TmpDir(canonical));
    }
  }

  /** After the first step of a swap with fresh names, nothing exists at or
      below the place a visible name of the staging directory moves to. */
  lemma FreshTargetIsVacant(fs: FileSystem, canonical: Path, staging: Path, c: string)
    requires TmpIsFree(fs, canonical, staging)
    requires FreshNames(fs, canonical, staging)
    requires c in VisibleNames(fs, staging)
    ensures Vacant(Reroot(fs, staging, TmpDir(canonical)), canonical + [c])
  {
    var tmp := TmpDir(canonical);
    var fs1 := Reroot(fs, staging, tmp);
    RerootSpec(fs, staging, tmp);
    assert c != "tmp";
    forall k | k in fs1
      ensures !(canonical + [c] <= k)
    {
      if tmp <= k {
        assert k[|canonical|] == "tmp";
      } else {
        assert k in fs && !(staging <= k);
        if canonical < k {
          assert k[|canonical|] != c;
        }
      }
    }
  }

  /** A visible name of `dir` whose place in `dest` is free moves up, when
      `dest` is shallower than `dir`. */
  lemma MovesWhenTargetFree(fs: FileSystem, dir: Path, dest: Path, c: string)
    requires c in VisibleNames(fs, dir)
    requires Vacant(fs, dest + [c])
    requires |dest| < |dir|
    ensures c in Moving(fs, dir, dest)
  {
    var q :| q in fs && Globbed(dir, q) && q[|dir|] == c;
    assert q[..|dir| + 1] == q[..|dir|] + [q[|dir|]] == dir + [c];
    assert !Vacant(fs, dir + [c]);
    assert !(dir + [c] <= dest + [c]);
    assert Childless(fs, dest + [c]) && dest + [c] !in fs;
  }

  /** With `tmp` free and no glob-matched name already in the canonical
      directory, the rename that moves a visible name up out of `tmp` succeeds. */
  lemma VisibleNameMoves(fs: FileSystem, canonical: Path, staging: Path, c: string)
    requires TmpIsFree(fs, canonical, staging)
    requires FreshNames(fs, canonical, staging)
    requires c in VisibleNames(fs, staging)
    ensures var tmp := TmpDir(canonical);
      c in Moving(Reroot(fs, staging, tmp), tmp, canonical)
  {
    var tmp := TmpDir(canonical);
    var fs1 := Reroot(fs, staging, tmp);
    RerootKeepsNames(fs, staging, tmp);
    FreshTargetIsVacant(fs, canonical, staging, c);
    MovesWhenTargetFree(fs1, tmp, canonical, c);
  }

  /** With `tmp` free and no glob-matched name already in the canonical
      directory, every visible name of the staging directory moves up. */
  lemma SwapMovesEveryName(fs: FileSystem, canonical: Path, staging: Path)
    requires TmpIsFree(fs, canonical, staging)
    requires FreshNames(fs, canonical, staging)
    ensures Moving(Reroot(fs, staging, TmpDir(canonical)), TmpDir(canonical), canonical) == VisibleNames(fs, staging)
  {
    var tmp := TmpDir(canonical);
    RerootKeepsNames(fs, staging, tmp);
    forall c | c in VisibleNames(fs, staging)
      ensures c in Moving(Reroot(fs, staging, tmp), tmp, canonical)
    {
      VisibleNameMoves(fs, canonical, staging, c);
    }
  }

  /** The swap with fresh names moves every glob-matched entry up unchanged. */
  lemma SwapPublishesGlobbed(fs: FileSystem, canonical: Path, staging: Path)
    requires TmpIsFree(fs, canonical, staging)
    requires FreshNames(fs, canonical, staging)
    ensures var r := Swap(fs, canonical, staging);
      forall p | p in fs && Globbed(staging, p) ::
        canonical + p[|staging|..] in r && r[canonical + p[|staging|..]] == fs[p]
  {
    var tmp := TmpDir(canonical);
    SwapFirstStep(fs, canonical, staging);
    var fs1 := Reroot(fs, staging, tmp);
    RerootSpec(fs, staging, tmp);
    SwapMovesEveryName(fs, canonical, staging);
    var fs2 := MoveUp(fs1, tmp, canonical);
    MoveUpSpec(fs1, tmp, canonical);
    var r := Remove(fs2, tmp);
    forall p | p in fs && Globbed(staging, p)
      ensures canonical + p[|staging|..] in r && r[canonical + p[|staging|..]] == fs[p]
    {
      var q := tmp + p[|staging|..];
      assert q in fs1 && fs1[q] == fs[p];
      assert q[|tmp|] == p[|staging|];
      assert p[|staging|] in VisibleNames(fs, staging);
      assert Carried(fs1, tmp, canonical, q);
      assert q[|tmp|..] == p[|staging|..];
      var k := canonical + p[|staging|..];
      assert k in fs2 && fs2[k] == fs[p];
      assert !(tmp <= k) by {
        assert k[|canonical|] == p[|staging|];
      }
    }
  }

  /** The swap with fresh names leaves every entry outside the staging directory alone. */
  lemma SwapKeepsOutside(fs: FileSystem, canonical: Path, staging: Path)
    requires TmpIsFree(fs, canonical, staging)
    requires FreshNames(fs, canonical, staging)
    ensures var r := Swap(fs, canonical, staging);
      forall p | p in fs && !(staging <= p) :: p in r && r[p] == fs[p]
  {
    var tmp := TmpDir(canonical);
    SwapFirstStep(fs, canonical, staging);
    var fs1 := Reroot(fs, staging, tmp);
    RerootSpec(fs, staging, tmp);
    SwapMovesEveryName(fs, canonical, staging);
    var fs2 := MoveUp(fs1, tmp, canonical);
    MoveUpSpec(fs1, tmp, canonical);
    var r := Remove(fs2, tmp);
    forall p | p in fs && !(staging <= p)
      ensures p in r && r[p] == fs[p]
    {
      assert !(tmp <= p);
      assert p in fs1 && fs1[p] == fs[p];
      assert !Carried(fs1, tmp, canonical, p);
      assert !Replaced(fs1, tmp, canonical, p);
      assert p in fs2 && fs2[p] == fs[p];
    }
  }

  /** Every entry after the swap is an untouched entry from outside the
      staging directory or a glob-matched entry moved up. */
  lemma SwapAddsNothingElse(fs: FileSystem, canonical: Path, staging: Path)
    requires TmpIsFree(fs, canonical, staging)
    ensures var r := Swap(fs, canonical, staging);
      forall k | k in r ::
        (k in fs && !(staging <= k) && r[k] == fs[k])
        || (canonical < k && staging + k[|canonical|..] in fs && Globbed(staging, staging + k[|canonical|..])
            && r[k] == fs[staging + k[|canonical|..]])
  {
    var tmp := TmpDir(canonical);
    SwapFirstStep(fs, canonical, staging);
    var fs1 := Reroot(fs, staging, tmp);
    RerootSpec(fs, staging, tmp);
    RerootKeepsNames(fs, staging, tmp);
    var fs2 := MoveUp(fs1, tmp, canonical);
    MoveUpSpec(fs1, tmp, canonical);
    var r := Remove(fs2, tmp);
    forall k | k in r
      ensures (k in fs && !(staging <= k) && r[k] == fs[k])
        || (canonical < k && staging + k[|canonical|..] in fs && Globbed(staging, staging + k[|canonical|..])
            && r[k] == fs[staging + k[|canonical|..]])
    {
      assert k in fs2 && !(tmp <= k) && r[k] == fs2[k];
      if canonical < k && tmp + k[|canonical|..] in fs1 && Carried(fs1, tmp, canonical, tmp + k[|canonical|..]) {
        var q := tmp + k[|canonical|..];
        assert q[|tmp|..] == k[|canonical|..];
        assert tmp <= q;
        var p := staging + q[|tmp|..];
        assert p in fs && fs1[q] == fs[p];
        assert p[|staging|] == q[|tmp|];
        assert q[|tmp|] in VisibleNames(fs, staging);
        assert Globbed(staging, p);
      } else {
        assert k in fs1 && fs2[k] == fs1[k];
        assert !(tmp <= k);
        assert k in fs && !(staging <= k) && fs1[k] == fs[k];
      }
    }
  }

  /** What the staging swap publishes when `tmp` is free and the canonical
      directory holds none of the names it moves up, as on a first build.
      Afterwards `tmp` is gone; every entry the glob matches sits directly
      under the canonical directory with its relative path and contents
      unchanged; every entry outside the staging directory is untouched; and
      nothing else exists, so hidden top-level entries of the staging
      directory are lost. */
  lemma StagingSwapPublishes(fs: FileSystem, canonical: Path, staging: Path)
    requires TmpIsFree(fs, canonical, staging)
    requires FreshNames(fs, canonical, staging)
    ensures var r := Swap(fs, canonical, staging);
      Vacant(r, TmpDir(canonical))
    ensures var r := Swap(fs, canonical, staging);
      forall p | p in fs && Globbed(staging, p) ::
        canonical + p[|staging|..] in r && r[canonical + p[|staging|..]] == fs[p]
    ensures var r := Swap(fs, canonical, staging);
      forall p | p in fs && !(staging <= p) :: p in r && r[p] == fs[p]
    ensures var r := Swap(fs, canonical, staging);
      forall k | k in r ::
        (k in fs && !(staging <= k) && r[k] == fs[k])
        || (canonical < k && staging + k[|canonical|..] in fs && Globbed(staging, staging + k[|canonical|..])
            && r[k] == fs[staging + k[|canonical|..]])
  {
    SwapPublishesGlobbed(fs, canonical, staging);
    SwapKeepsOutside(fs, canonical, staging);
    SwapAddsNothingElse(fs, canonical, staging);
  }

  /** A visible name that already exists in the canonical directory as a
      non-empty directory (`stale` lies inside it) does not move up. */
  lemma StaleNameStays(fs: FileSystem, canonical: Path, staging: Path, c: string, stale: Path)
    requires TmpIsFree(fs, canonical, staging)
    requires stale in fs && canonical + [c] < stale && !(staging <= stale)
    ensures c !in Moving(Reroot(fs, staging, TmpDir(canonical)), TmpDir(canonical), canonical)
  {
    var tmp := TmpDir(canonical);
    RerootSpec(fs, staging, tmp);
    assert !(tmp <= stale);
    assert !Childless(Reroot(fs, staging, tmp), canonical + [c]);
  }

  /** On a rebuild the old subtree of a stale name survives the swap unchanged. */
  lemma StaleSubtreeKept(fs: FileSystem, canonical: Path, staging: Path, c: string, stale: Path)
    requires TmpIsFree(fs, canonical, staging)
    requires stale in fs && canonical + [c] < stale && !(staging <= stale)
    ensures var r := Swap(fs, canonical, staging);
      forall p | p in fs && canonical + [c] <= p && !(staging <= p) :: p in r && r[p] == fs[p]
  {
    var tmp := TmpDir(canonical);
    SwapFirstStep(fs, canonical, staging);
    var fs1 := Reroot(fs, staging, tmp);
    StaleNameStays(fs, canonical, staging, c, stale);
    RerootSpec(fs, staging, tmp);
    MoveUpSpec(fs1, tmp, canonical);
    var r := Remove(MoveUp(fs1, tmp, canonical), tmp);
    forall p | p in fs && canonical + [c] <= p && !(staging <= p)
      ensures p in r && r[p] == fs[p]
    {
      assert !(tmp <= p);
      assert p[|canonical|] == c;
      assert !Carried(fs1, tmp, canonical, p);
      assert !Replaced(fs1, tmp, canonical, p);
    }
  }

  /** On a rebuild nothing of the new build lands below a stale name. */
  lemma StaleNameGetsNothingNew(fs: FileSystem, canonical: Path, staging: Path, c: string, stale: Path)
    requires TmpIsFree(fs, canonical, staging)
    requires stale in fs && canonical + [c] < stale && !(staging <= stale)
    ensures var r := Swap(fs, canonical, staging);
      forall k | k in r && canonical + [c] <= k :: k in fs && !(staging <= k) && r[k] == fs[k]
  {
    var tmp := TmpDir(canonical);
    SwapFirstStep(fs, canonical, staging);
    var fs1 := Reroot(fs, staging, tmp);
    StaleNameStays(fs, canonical, staging, c, stale);
    RerootSpec(fs, staging, tmp);
    MoveUpSpec(fs1, tmp, canonical);
    var fs2 := MoveUp(fs1, tmp, canonical);
    var r := Remove(fs2, tmp);
    forall k | k in r && canonical + [c] <= k
      ensures k in fs && !(staging <= k) && r[k] == fs[k]
    {
      assert k in fs2 && !(tmp <= k) && r[k] == fs2[k];
      assert (tmp + k[|canonical|..])[|tmp|] == c;
      assert !Carried(fs1, tmp, canonical, tmp + k[|canonical|..]);
      assert k in fs1 && fs2[k] == fs1[k];
    }
  }

  /** When nothing new lands below `canonical/c`, every landing in `r` comes
      from a staged entry under another name. */
  lemma LandingsAvoidName(fs: FileSystem, r: FileSystem, canonical: Path, staging: Path, c: string)
    requires forall k | k in r && canonical + [c] <= k :: k in fs && !(staging <= k) && r[k] == fs[k]
    requires forall k | k in r ::
      (k in fs && !(staging <= k) && r[k] == fs[k])
      || (canonical < k && staging + k[|canonical|..] in fs && Globbed(staging, staging + k[|canonical|..])
          && r[k] == fs[staging + k[|canonical|..]])
    ensures forall k | k in r ::
      (k in fs && !(staging <= k) && r[k] == fs[k])
      || (canonical < k && k[|canonical|] != c && staging + k[|canonical|..] in fs
          && Globbed(staging, staging + k[|canonical|..]) && r[k] == fs[staging + k[|canonical|..]])
  {
    forall k | k in r && canonical < k && k[|canonical|] == c
      ensures canonical + [c] <= k
    {
      assert k[..|canonical| + 1] == canonical + [c];
    }
  }

  /** A rebuild over an earlier build. When a name `c` the glob matches in the
      staging directory already exists in the canonical directory as a
      non-empty directory (`stale` lies inside it), the rename of `c` fails
      silently: the old subtree at `c` survives unchanged, nothing of the new
      build appears below it, and no entry of the result comes from the new
      subtree at `c`, which is deleted with `tmp`. */
  lemma RebuildKeepsStaleDirectory(fs: FileSystem, canonical: Path, staging: Path, c: string, stale: Path)
    requires TmpIsFree(fs, canonical, staging)
    requires c in VisibleNames(fs, staging)
    requires stale in fs && canonical + [c] < stale && !(staging <= stale)
    ensures var r := Swap(fs, canonical, staging);
      forall p | p in fs && canonical + [c] <= p && !(staging <= p) :: p in r && r[p] == fs[p]
    ensures var r := Swap(fs, canonical, staging);
      forall k | k in r && canonical + [c] <= k :: k in fs && !(staging <= k) && r[k] == fs[k]
    ensures var r := Swap(fs, canonical, staging);
      forall k | k in r ::
        (k in fs && !(staging <= k) && r[k] == fs[k])
        || (canonical < k && k[|canonical|] != c && staging + k[|canonical|..] in fs
            && Globbed(staging, staging + k[|canonical|..]) && r[k] == fs[staging + k[|canonical|..]])
  {
    StaleSubtreeKept(fs, canonical, staging, c, stale);
    StaleNameGetsNothingNew(fs, canonical, staging, c, stale);
    SwapAddsNothingElse(fs, canonical, staging);
    LandingsAvoidName(fs, Swap(fs, canonical, staging), canonical, staging, c);
  }

  /** The entries a rebuild should clear first: those of the canonical
      directory, outside the staging directory, under a name the glob matches
      in the staging directory. */
  function ClearCollisions(fs: FileSystem, canonical: Path, staging: Path): (r: FileSystem)
    ensures forall p | p in fs && staging <= p :: p in r && r[p] == fs[p]
    ensures forall k | k in r :: k in fs && r[k] == fs[k]
  {
    map p | p in fs && !(canonical < p && !(staging <= p) && p[|canonical|] in VisibleNames(fs, staging)) :: fs[p]
  }

  /** The swap a rebuild needs: clear the colliding names, then swap. */
  function FreshSwap(fs: FileSystem, canonical: Path, staging: Path): FileSystem {
    Swap(ClearCollisions(fs, canonical, staging), canonical, staging)
  }

  /** The corrected swap publishes the whole new build whatever an earlier
      build left behind: `tmp` is gone, every glob-matched entry sits under
      the canonical directory with its contents, and every other entry
      outside the staging directory whose name the new build does not use
      is untouched. */
  lemma FreshSwapPublishes(fs: FileSystem, canonical: Path, staging: Path)
    requires TmpIsFree(fs, canonical, staging)
    ensures var r := FreshSwap(fs, canonical, staging);
      Vacant(r, TmpDir(canonical))
    ensures var r := FreshSwap(fs, canonical, staging);
      forall p | p in fs && Globbed(staging, p) ::
        canonical + p[|staging|..] in r && r[canonical + p[|staging|..]] == fs[p]
    ensures var r := FreshSwap(fs, canonical, staging);
      forall p | p in fs && !(staging <= p) && !(canonical < p && p[|canonical|] in VisibleNames(fs, staging)) ::
        p in r && r[p] == fs[p]
  {
    var cl := ClearCollisions(fs, canonical, staging);
    assert VisibleNames(cl, staging) == VisibleNames(fs, staging) by {
      forall c | c in VisibleNames(fs, staging)
        ensures c in VisibleNames(cl, staging)
      {
        var p :| p in fs && Globbed(staging, p) && p[|staging|] == c;
        assert p in cl;
      }
    }
    StagingSwapPublishes(cl, canonical, staging);
  }
}

=== FILE: options.dfy ===
/** The build options `validate` and `build` both read. */
module Options {

  /** The options the orchestrator consults (`isESLINT`, `isExpDesc`, `plugins`),
      each taken as already coerced to its truth value. */
  datatype BuildOptions = BuildOptions(isESLINT: bool, isExpDesc: bool, plugins: bool)
}

=== FILE: results.dfy ===
/** Failure-carrying values used where a collaborator of the orchestrator may
    be absent (an optional object field) or may throw (a JavaScript exception). */
module Results {

  /** An optional value; `None` stands for a property that is absent from an object. */
  datatype Option<+T> = None | Some(value: T)

  /** The outcome of a call that may throw; `Err` carries the exception's message. */
  datatype Result<+T> = Ok(value: T) | Err(reason: string)
}

=== FILE: units.dfy ===
/** The experiment descriptor: an ordered list of unit records, and the two
    augmentation steps that append a fixed synthetic unit to it. */
module Units {

  /** One entry of the descriptor's `units` array. Every field is a string in
      the descriptor file (`unit-type`, `label`, `content-type`, `source`, `target`;
      `label` is a Dafny keyword, so that field is called `caption` here). */
  datatype UnitSpec = UnitSpec(
    unitType: string,
    caption: string,
    contentType: string,
    source: string,
    target: string)

  /** The descriptor loaded from the experiment directory; only `units` is used by the orchestrator. */
  datatype Descriptor = Descriptor(units: seq<UnitSpec>)

  /** The unit appended by `includeFeedback`. */
  const FeedbackUnit := UnitSpec("task", "Feedback", "text", "feedback.md", "feedback.html")

  /** The unit appended by `includeContributors`. */
  const ContributorsUnit := UnitSpec("task", "Contributors", "text", "contributors.md", "contributors.html")

  /** `units.push(u)`: the pushed unit becomes the last one and nothing before it moves. */
  function Push(d: Descriptor, u: UnitSpec): (r: Descriptor)
    ensures |r.units| == |d.units| + 1
    ensures r.units[..|d.units|] == d.units
    ensures r.units[|d.units|] == u
  {
    Descriptor(d.units + [u])
  }

  /** `includeFeedback`: appends the feedback task, a text unit rendered from `feedback.md`. */
  function IncludeFeedback(d: Descriptor): (r: Descriptor)
    ensures |r.units| == |d.units| + 1
    ensures r.units[..|d.units|] == d.units
    ensures var u := r.units[|d.units|];
      u.unitType == "task" && u.caption == "Feedback" && u.contentType == "text"
      && u.source == "feedback.md" && u.target == "feedback.html"
  {
    Push(d, FeedbackUnit)
  }

  /** `includeContributors`: appends the contributors task, a text unit rendered from `contributors.md`. */
  function IncludeContributors(d: Descriptor): (r: Descriptor)
    ensures |r.units| == |d.units| + 1
    ensures r.units[..|d.units|] == d.units
    ensures var u := r.units[|d.units|];
      u.unitType == "task" && u.caption == "Contributors" && u.contentType == "text"
      && u.source == "contributors.md" && u.target == "contributors.html"
  {
    Push(d, ContributorsUnit)
  }

  /** Neither augmentation is idempotent: a second call adds a second,
      identical trailing unit instead of leaving the descriptor as it was. */
  lemma AugmentationNotIdempotent(d: Descriptor)
    ensures IncludeFeedback(IncludeFeedback(d)) != IncludeFeedback(d)
    ensures IncludeContributors(IncludeContributors(d)) != IncludeContributors(d)
    ensures var twice := IncludeContributors(IncludeContributors(d)).units;
      |twice| == |d.units| + 2 && twice[|d.units|] == twice[|d.units| + 1] == ContributorsUnit
    ensures var twice := IncludeFeedback(IncludeFeedback(d)).units;
      |twice| == |d.units| + 2 && twice[|d.units|] == twice[|d.units| + 1] == FeedbackUnit
  {
  }

  /** The call order decides the order of the two trailing units: the unit
      appended last renders last, and the two orders give different descriptors. */
  lemma AugmentationOrder(d: Descriptor)
    ensures var fc := IncludeContributors(IncludeFeedback(d)).units;
      |fc| == |d.units| + 2 && fc[..|d.units|] == d.units
      && fc[|d.units|] == FeedbackUnit && fc[|d.units| + 1] == ContributorsUnit
    ensures var cf := IncludeFeedback(IncludeContributors(d)).units;
      |cf| == |d.units| + 2 && cf[..|d.units|] == d.units
      && cf[|d.units|] == ContributorsUnit && cf[|d.units| + 1] == FeedbackUnit
    ensures IncludeContributors(IncludeFeedback(d)) != IncludeFeedback(IncludeContributors(d))
  {
  }
}

=== FILE: validation.dfy ===
/** `validate`: the optional lint and descriptor/assessment checks, modelled as
    the ordered list of log writes and console diagnostics they produce. The
    external tools' output is opaque text supplied by a `Tools` value. */
module Validation {
  import opened Units
  import opened Options

  /** The three log files written into the build directory. */
  datatype Log = EslintLog | ValidateLog | AssesmentLog

  /** Shell output redirection: `>` truncates the file, `>>` appends to it. */
  datatype Redirect = Truncate | Append

  datatype Event =
    | Write(log: Log, mode: Redirect, text: string)  // a command's output redirected into a log
    | Diagnostic(message: string)                    // one `console.error` line

  /** What validation reads from outside: the resolution of a unit's `source`
      against the experiment content directory, `fs.existsSync`, and the text
      the linter and the schema validator print. */
  datatype Tools = Tools(
    resolve: string -> string,
    fileExists: string -> bool,
    lintReport: string,
    descriptorReport: string,
    assessmentReport: string -> string)

  /** The content-type literal the loop selects, spelt as in the source. */
  const AssessmentTag := "assesment"

  predicate Selected(u: UnitSpec) {
    u.contentType == AssessmentTag
  }

  /** The line `echo =<source>` appends before a unit's validator output. */
  function Header(u: UnitSpec): string {
    "=" + u.source + "\n"
  }

  function MissingMessage(path: string): string {
    "Assesment file " + path + " does not exist"
  }

  /** The events one unit contributes inside the `forEach` loop. */
  function UnitEvents(t: Tools, u: UnitSpec): seq<Event> {
    if !Selected(u) then []
    else
      var path := t.resolve(u.source);
      if t.fileExists(path) then
        [Write(AssesmentLog, Append, Header(u)), Write(AssesmentLog, Append, t.assessmentReport(path))]
      else
        [Diagnostic(MissingMessage(path))]
  }

  /** The `forEach` over the units, in descriptor order. */
  function AssessmentEvents(t: Tools, units: seq<UnitSpec>): seq<Event> {
    if |units| == 0 then [] else UnitEvents(t, units[0]) + AssessmentEvents(t, units[1..])
  }

  /** `validate(build_options)` over the experiment's current units. */
  function Validate(opts: BuildOptions, t: Tools, units: seq<UnitSpec>): seq<Event> {
    (if opts.isESLINT then [Write(EslintLog, Truncate, t.lintReport)] else [])
    + (if opts.isExpDesc then [Write(ValidateLog, Append, t.descriptorReport)] + AssessmentEvents(t, units) else [])
  }

  // ---- Meaning of an event trace: log contents and console output ----------

  /** The text of a log, an absent file reading as empty. */
  function Content(logs: map<Log, string>, l: Log): string {
    if l in logs then logs[l] else ""
  }

  /** The log files after the events are carried out in order. */
  function Apply(logs: map<Log, string>, events: seq<Event>): map<Log, string>
    decreases |events|
  {
    if |events| == 0 then logs
    else
      var next := match events[0]
        case Write(l, Truncate, text) => logs[l := text]
        case Write(l, Append, text) => logs[l := Content(logs, l) + text]
        case Diagnostic(_) => logs;
      Apply(next, events[1..])
  }

  /** The `console.error` diagnostics among the events, in order. Tool output
      that `shell.exec` echoes to standard error is not among them. */
  function Console(events: seq<Event>): seq<string> {
    if |events| == 0 then []
    else (if events[0].Diagnostic? then [events[0].message] else []) + Console(events[1..])
  }

  // ---- Reference definitions, written per unit -----------------------------

  /** What `assesment.log` gains: for each selected unit whose file exists, its
      header line followed by the validator's output for that file. */
  function AssessmentText(t: Tools, units: seq<UnitSpec>): string {
    if |units| == 0 then "" else UnitText(t, units[0]) + AssessmentText(t, units[1..])
  }

  /** One unit's share of `AssessmentText`. */
  function UnitText(t: Tools, u: UnitSpec): string {
    if Selected(u) && t.fileExists(t.resolve(u.source))
    then Header(u) + t.assessmentReport(t.resolve(u.source)) else ""
  }

  /** The diagnostic line printed for each missing path, in order. */
  function Messages(paths: seq<string>): (r: seq<string>)
    ensures |r| == |paths|
    ensures forall i | 0 <= i < |paths| :: r[i] == MissingMessage(paths[i])
  {
    if |paths| == 0 then [] else [MissingMessage(paths[0])] + Messages(paths[1..])
  }

  /** The resolved paths of the selected units whose file is missing, in order. */
  function MissingPaths(t: Tools, units: seq<UnitSpec>): seq<string> {
    if |units| == 0 then []
    else
      var u := units[0];
      (if Selected(u) && !t.fileExists(t.resolve(u.source)) then [t.resolve(u.source)] else [])
      + MissingPaths(t, units[1..])
  }

  // ---- Properties -----------------------------------------------------------

  /** A unit contributes events exactly when its content type is the literal
      `"assesment"`; the correct spelling `"assessment"` is not selected. */
  lemma SelectionIsExactTag(t: Tools, u: UnitSpec)
    ensures UnitEvents(t, u) != [] <==> u.contentType == "assesment"
    ensures u.contentType == "assessment" ==> UnitEvents(t, u) == []
  {
  }

  /** The loop is compositional: the events of a concatenation of unit lists
      are the events of the first list followed by those of the second. */
  lemma {:induction false} AssessmentEventsAppend(t: Tools, a: seq<UnitSpec>, b: seq<UnitSpec>)
    ensures AssessmentEvents(t, a + b) == AssessmentEvents(t, a) + AssessmentEvents(t, b)
    decreases |a|
  {
    if |a| == 0 {
      assert a + b == b;
    } else {
      assert (a + b)[1..] == a[1..] + b;
      AssessmentEventsAppend(t, a[1..], b);
    }
  }

  /** No unit selected means no assessment event, and conversely. */
  lemma {:induction false} NoSelectionNoEvents(t: Tools, units: seq<UnitSpec>)
    ensures AssessmentEvents(t, units) == [] <==> forall i | 0 <= i < |units| :: !Selected(units[i])
    decreases |units|
  {
    if |units| > 0 {
      NoSelectionNoEvents(t, units[1..]);
      assert forall i | 1 <= i < |units| :: units[i] == units[1..][i - 1];
    }
  }

  /** The loop only appends to `assesment.log` or prints a diagnostic; it never
      truncates and never touches another log. */
  lemma {:induction false} AssessmentEventsOnlyAppend(t: Tools, units: seq<UnitSpec>)
    ensures forall e | e in AssessmentEvents(t, units) ::
      e.Diagnostic? || (e.log == AssesmentLog && e.mode == Append)
    decreases |units|
  {
    if |units| > 0 {
      AssessmentEventsOnlyAppend(t, units[1..]);
    }
  }

  /** A missing file yields exactly one diagnostic naming its resolved path and
      does not stop the loop: the units after it are processed as usual. */
  lemma MissingFileContinues(t: Tools, before: seq<UnitSpec>, u: UnitSpec, after: seq<UnitSpec>)
    requires Selected(u) && !t.fileExists(t.resolve(u.source))
    ensures AssessmentEvents(t, before + [u] + after)
      == AssessmentEvents(t, before) + [Diagnostic(MissingMessage(t.resolve(u.source)))] + AssessmentEvents(t, after)
  {
    AssessmentEventsAppend(t, before + [u], after);
    AssessmentEventsAppend(t, before, [u]);
    assert AssessmentEvents(t, [u]) == UnitEvents(t, u) + AssessmentEvents(t, []);
  }

  lemma {:induction false} ApplyAppend(logs: map<Log, string>, a: seq<Event>, b: seq<Event>)
    ensures Apply(logs, a + b) == Apply(Apply(logs, a), b)
    decreases |a|
  {
    if |a| == 0 {
      assert a + b == b;
    } else {
      assert (a + b)[1..] == a[1..] + b;
      var next := match a[0]
        case Write(l, Truncate, text) => logs[l := text]
        case Write(l, Append, text) => logs[l := Content(logs, l) + text]
        case Diagnostic(_) => logs;
      ApplyAppend(next, a[1..], b);
    }
  }

  lemma {:induction false} ConsoleAppend(a: seq<Event>, b: seq<Event>)
    ensures Console(a + b) == Console(a) + Console(b)
    decreases |a|
  {
    if |a| == 0 {
      assert a + b == b;
    } else {
      assert (a + b)[1..] == a[1..] + b;
      ConsoleAppend(a[1..], b);
    }
  }

  /** One unit's events: a selected unit whose file exists appends its header
      line and then the validator's report to `assesment.log`; any other unit
      changes no log. */
  lemma UnitLogEffect(logs: map<Log, string>, t: Tools, u: UnitSpec)
    ensures var after := Apply(logs, UnitEvents(t, u));
      && Content(after, AssesmentLog) == Content(logs, AssesmentLog) + UnitText(t, u)
      && Content(after, EslintLog) == Content(logs, EslintLog)
      && Content(after, ValidateLog) == Content(logs, ValidateLog)
  {
    var head := UnitEvents(t, u);
    var path := t.resolve(u.source);
    if Selected(u) && t.fileExists(path) {
      var m1 := logs[AssesmentLog := Content(logs, AssesmentLog) + Header(u)];
      var m2 := m1[AssesmentLog := Content(m1, AssesmentLog) + t.assessmentReport(path)];
      assert head[1..] == [Write(AssesmentLog, Append, t.assessmentReport(path))];
      assert Apply(logs, head) == Apply(m1, head[1..]);
      assert head[1..][1..] == [];
      assert Apply(m1, head[1..]) == Apply(m2, []);
    } else if Selected(u) {
      assert head[1..] == [];
    }
  }

  /** Carrying out the loop's events appends exactly the per-unit reference
      text to `assesment.log` and leaves the other two logs as they were. */
  lemma {:induction false} AssessmentLogGrows(logs: map<Log, string>, t: Tools, units: seq<UnitSpec>)
    ensures var after := Apply(logs, AssessmentEvents(t, units));
      && Content(after, AssesmentLog) == Content(logs, AssesmentLog) + AssessmentText(t, units)
      && Content(after, EslintLog) == Content(logs, EslintLog)
      && Content(after, ValidateLog) == Content(logs, ValidateLog)
    decreases |units|
  {
    if |units| > 0 {
      var u := units[0];
      var head := UnitEvents(t, u);
      ApplyAppend(logs, head, AssessmentEvents(t, units[1..]));
      var mid := Apply(logs, head);
      UnitLogEffect(logs, t, u);
      AssessmentLogGrows(mid, t, units[1..]);
    }
  }

  /** One unit's console output: one diagnostic when it is selected and its
      file is missing, nothing otherwise. */
  lemma UnitConsole(t: Tools, u: UnitSpec)
    ensures Console(UnitEvents(t, u))
      == (if Selected(u) && !t.fileExists(t.resolve(u.source)) then [MissingMessage(t.resolve(u.source))] else [])
  {
    var head := UnitEvents(t, u);
    if Selected(u) && t.fileExists(t.resolve(u.source)) {
      assert Console(head) == Console(head[1..]);
      assert Console(head[1..]) == Console(head[1..][1..]);
      assert head[1..][1..] == [];
    } else if Selected(u) {
      assert head[1..] == [];
    }
  }

  /** The loop's console output is the diagnostic of each missing file, in order. */
  lemma {:induction false} ConsoleIsMessages(t: Tools, units: seq<UnitSpec>)
    ensures Console(AssessmentEvents(t, units)) == Messages(MissingPaths(t, units))
    decreases |units|
  {
    if |units| > 0 {
      var u := units[0];
      ConsoleAppend(UnitEvents(t, u), AssessmentEvents(t, units[1..]));
      UnitConsole(t, u);
      ConsoleIsMessages(t, units[1..]);
      var rest := MissingPaths(t, units[1..]);
      if Selected(u) && !t.fileExists(t.resolve(u.source)) {
        assert ([t.resolve(u.source)] + rest)[1..] == rest;
      } else {
        assert MissingPaths(t, units) == rest;
      }
    }
  }

  /** The diagnostics printed by the loop are exactly the missing files' paths, in order. */
  lemma DiagnosticsAreMissingFiles(t: Tools, units: seq<UnitSpec>)
    ensures Console(AssessmentEvents(t, units)) == seq(|MissingPaths(t, units)|, i requires 0 <= i < |MissingPaths(t, units)| => MissingMessage(MissingPaths(t, units)[i]))
  {
    ConsoleIsMessages(t, units);
  }

  /** What a `validate` call does to the three logs: `eslint.log` is replaced by
      the lint output when linting is on, `validate.log` and `assesment.log`
      only grow, and only when descriptor validation is on. */
  lemma ValidateLogs(logs: map<Log, string>, opts: BuildOptions, t: Tools, units: seq<UnitSpec>)
    ensures var after := Apply(logs, Validate(opts, t, units));
      && Content(after, EslintLog) == (if opts.isESLINT then t.lintReport else Content(logs, EslintLog))
      && Content(after, ValidateLog) == Content(logs, ValidateLog) + (if opts.isExpDesc then t.descriptorReport else "")
      && Content(after, AssesmentLog) == Content(logs, AssesmentLog) + (if opts.isExpDesc then AssessmentText(t, units) else "")
  {
    var lint: seq<Event> := if opts.isESLINT then [Write(EslintLog, Truncate, t.lintReport)] else [];
    var desc: seq<Event> := if opts.isExpDesc then [Write(ValidateLog, Append, t.descriptorReport)] + AssessmentEvents(t, units) else [];
    ApplyAppend(logs, lint, desc);
    var mid := Apply(logs, lint);
    if opts.isESLINT {
      assert Apply(logs, lint) == Apply(logs[EslintLog := t.lintReport], lint[1..]);
    }
    if opts.isExpDesc {
      var d0: seq<Event> := [Write(ValidateLog, Append, t.descriptorReport)];
      ApplyAppend(mid, d0, AssessmentEvents(t, units));
      assert Apply(mid, d0) == Apply(mid[ValidateLog := Content(mid, ValidateLog) + t.descriptorReport], d0[1..]);
      AssessmentLogGrows(Apply(mid, d0), t, units);
    }
  }

  /** Repeated validation accumulates history in `validate.log` and
      `assesment.log`, while `eslint.log` only ever holds the latest lint run.
      The two runs may see different tool output and different units. */
  lemma ValidateTwiceAccumulates(logs: map<Log, string>, o1: BuildOptions, o2: BuildOptions,
                                 t1: Tools, t2: Tools, u1: seq<UnitSpec>, u2: seq<UnitSpec>)
    requires o1.isESLINT && o1.isExpDesc && o2.isESLINT && o2.isExpDesc
    ensures var once := Apply(logs, Validate(o1, t1, u1));
      var twice := Apply(once, Validate(o2, t2, u2));
      && Content(twice, EslintLog) == t2.lintReport
      && Content(twice, ValidateLog) == Content(logs, ValidateLog) + t1.descriptorReport + t2.descriptorReport
      && Content(twice, AssesmentLog) == Content(logs, AssesmentLog) + AssessmentText(t1, u1) + AssessmentText(t2, u2)
  {
    var once := Apply(logs, Validate(o1, t1, u1));
    ValidateLogs(logs, o1, t1, u1);
    ValidateLogs(once, o2, t2, u2);
  }

  /** Lint output goes to `eslint.log` exactly when linting is on, and the
      descriptor validator's output goes to `validate.log` exactly when `isExpDesc` is on;
      without `isExpDesc` no unit is looked at and no `console.error` diagnostic is printed. */
  lemma ValidateGating(opts: BuildOptions, t: Tools, units: seq<UnitSpec>)
    ensures Write(EslintLog, Truncate, t.lintReport) in Validate(opts, t, units) <==> opts.isESLINT
    ensures (exists e :: e in Validate(opts, t, units) && e.Write? && e.log == ValidateLog) <==> opts.isExpDesc
    ensures !opts.isExpDesc ==>
      (Console(Validate(opts, t, units)) == []
       && forall e | e in Validate(opts, t, units) :: e.Write? && e.log == EslintLog)
    ensures forall e | e in Validate(opts, t, units) && e.Write? && e.mode == Truncate :: e.log == EslintLog
  {
    AssessmentEventsOnlyAppend(t, units);
    var v := Validate(opts, t, units);
    if opts.isExpDesc {
      assert v[if opts.isESLINT then 1 else 0] == Write(ValidateLog, Append, t.descriptorReport);
    }
    if !opts.isESLINT {
      assert Write(EslintLog, Truncate, t.lintReport) !in v;
    }
    if !opts.isExpDesc {
      if opts.isESLINT {
        assert Console(v) == Console(v[1..]);
      }
    }
  }

  /** Augmenting the descriptor does not change what validation does: both
      synthetic units are text units, so the loop skips them. */
  lemma AugmentationInvisibleToValidation(opts: BuildOptions, t: Tools, d: Descriptor)
    ensures Validate(opts, t, IncludeFeedback(d).units) == Validate(opts, t, d.units)
    ensures Validate(opts, t, IncludeContributors(d).units) == Validate(opts, t, d.units)
  {
    AssessmentEventsAppend(t, d.units, [FeedbackUnit]);
    AssessmentEventsAppend(t, d.units, [ContributorsUnit]);
    assert AssessmentEvents(t, [FeedbackUnit]) == [];
    assert AssessmentEvents(t, [ContributorsUnit]) == [];
  }

  /** Two units, a text page and an assessment whose file is missing: the
      descriptor validator is still run, the missing file is reported once on the
      console, and nothing is appended to `assesment.log`. */
  lemma MissingQuizScenario(t: Tools)
    requires !t.fileExists(t.resolve("quiz.js"))
    ensures var units := [UnitSpec("task", "Introduction", "text", "intro.md", "intro.html"),
                          UnitSpec("task", "Quiz", "assesment", "quiz.js", "quiz.html")];
      Validate(BuildOptions(false, true, false), t, units)
        == [Write(ValidateLog, Append, t.descriptorReport), Diagnostic(MissingMessage(t.resolve("quiz.js")))]
  {
    var units := [UnitSpec("task", "Introduction", "text", "intro.md", "intro.html"),
                  UnitSpec("task", "Quiz", "assesment", "quiz.js", "quiz.html")];
    assert units[1..][1..] == [];
    assert AssessmentEvents(t, units[1..]) == UnitEvents(t, units[1]) + AssessmentEvents(t, []);
    assert AssessmentEvents(t, units) == [] + AssessmentEvents(t, units[1..]);
  }
}
